=== FILE: README.md ===
# E-commerce service layer, modelled in Dafny

This project models the service layer of an e-commerce REST backend
(products, users, categories, orders) as pure Dafny functions over immutable
records:

- **Listings** (`GetAllProductService`, `SearchProductsAsync`,
  `GetAllUsersAsync`, `GetAllCategoryService`) are functions from a sequence
  of table rows to a page. Each follows its own query order:
  - the product listing: keyword `Where`, `OrderBy`, category and price
    `Where`s, `Skip`/`Take`, and a count before paging;
  - the search: keyword and price `Where`s, `OrderBy`, `Skip`/`Take`, and
    no count;
  - the user listing: the non-admin `Where`, the keyword `Where`,
    `OrderBy`, `Skip`/`Take`, and a count before paging;
  - the category listing: keyword `Where`, `OrderBy`, `Skip`/`Take`, and a
    count before paging.

  Each is proved against an independent statement of which rows match. The result before paging is a permutation of exactly the matching
  rows. It is sorted by the requested key in the requested direction. No
  tie order is promised, because the database gives none. The page is the
  `(pageNumber - 1) * pageSize` slice.
- **Create, update and delete** for products, users and categories are
  transitions on a `map<Guid, Record>` table. Each has its field-by-field
  merge rules (`??` keeps the old value, some fields are always
  overwritten) and a frame: no other row changes. Unknown identifiers give
  null and leave the table alone. The user ban flag is a toggle. Login looks
  up the user by email and asks an abstract password hasher.
- **Slug generation**: lower-case, then replace each space with `-`.
- **`OrderController`'s guards**: for each action, the order of the checks
  (claim present, claim is a Guid, order id is a Guid) and how the order
  service's answer maps to a response.

Modules: `Basics` (nullable values, errors, identifiers, the decimal range),
`Text` (ASCII lower-casing, substring search, ordinal string order, the
keyword filter), `Listing` (filter, sort, page), `Products`, `Users`,
`Categories`, `OrderController`.

Parameters stand in for what the code gets from outside:

- `Guid.NewGuid()` becomes a fresh `id`.
- `DateTime.UtcNow` becomes `now`.
- The password hasher becomes `hash` and `verify`.
- `Guid.TryParse` becomes `parse`.
- The order service's answer becomes `service`.

A fresh `id` that is already in the table gives `DuplicateKey`, as the
primary key would.

Behaviours of the code that set one operation apart from its siblings:

- Unlike the product and user listings, the category listing sorts by name
  for *any* non-empty `sortBy`; there is no "date" key.
- Unlike the product and user listings, it throws on a null `sortBy`.
- Unlike the product listing, the search throws on a null keyword.
- Unlike `UpdateProductService` and `UpdateUser`, `UpdateCategoryService`
  assigns name and description unconditionally, with no `??` to keep the
  stored value. The model's request fields are non-null strings, so it
  states the unconditional overwrite but not what a null field would do.
- No listing validates its page number or page size, so the model requires
  both to be at least 1. The controllers default them to page 1 of size 10,
  except the search, whose defaults are page 1 of size 3.

## Model

| member | source | states |
|---|---|---|
| Text.ContainsIff | src/Services/ProductService.cs:26-27 | The recursive `Contains` holds exactly when the keyword occurs at some index of the name. |
| Text.KeywordMatchesIff | src/Services/ProductService.cs:25-28 | A non-empty keyword admits a name exactly when the lower-cased keyword occurs in the lower-cased name. |
| Text.EmptyKeywordIsNoKeyword | src/Services/ProductService.cs:25 | An empty keyword admits the same rows as a null one. |
| Text.StrLeTotal | src/Services/ProductService.cs:42 | Any two names are comparable under the collation used to order by name. |
| Text.StrLeTransitive | src/Services/ProductService.cs:42 | The name collation is transitive. |
| Listing.Filter | src/Services/ProductService.cs:53 | `Where` keeps each row satisfying the predicate with its multiplicity, drops every other row, and never grows the sequence. |
| Listing.FilterKeepsSorted | src/Services/ProductService.cs:51-63 | A `Where` applied after `OrderBy` keeps the rows sorted. |
| Listing.SortBy | src/Services/ProductService.cs:36 | `OrderBy` returns a permutation of its input. |
| Listing.SortBySorted | src/Services/ProductService.cs:31-49 | Under a total preorder, `OrderBy`'s result is sorted. |
| Listing.Page | src/Services/ProductService.cs:65-68 | Page length is at most `pageSize` and is exactly the rows left after the offset. Item `k` is row `(pageNumber-1)*pageSize + k`. |
| Listing.PageLocates | src/Services/ProductService.cs:65-68 | For one fixed order of the result, every row `i` is item `i % pageSize` of page `i/pageSize + 1`. |
| Listing.PageOfSorted | src/Services/ProductService.cs:65-68 | A page of a sorted sequence is sorted and holds only rows of that sequence. |
| Products.GenerateSlug | src/Services/ProductService.cs:14-17 | The slug has the name's length. Each space becomes `-`, every other character is lower-cased, and no space remains. |
| Products.SlugIdempotent | src/Services/ProductService.cs:14-17 | Slugging a slug changes nothing. |
| Products.SlugExample | src/Services/ProductService.cs:14-17 | "Red Shoes" becomes "red-shoes". |
| Products.ProductOrderOfSpec | src/Services/ProductService.cs:31-49 | `sortBy` is case-insensitive: "price" and "date" select those keys and any other non-empty value selects the name. A null or empty `sortBy` means creation time ascending. |
| Products.ProductLePreorder | src/Services/ProductService.cs:35-43 | Every product ordering (price, date or name; either direction) is a total preorder. |
| Products.BoundsKeepSorted | src/Services/ProductService.cs:55-63 | The conditional price `Where`s keep sorted rows sorted. |
| Products.PipelinePermutes | src/Services/ProductService.cs:25-63 | The step-by-step keyword, category and price filters keep exactly the rows of the declarative match. A null, zero or `decimal.MaxValue` bound restricts nothing. |
| Products.OrderedProducts | src/Services/ProductService.cs:20-63 | Before paging, the listing is a permutation of the matching products, sorted by the requested key and direction. |
| Products.ListProducts | src/Services/ProductService.cs:18-78 | `TotalCount` is the number of matching products. Items are at most `pageSize`, all match and come from the table, are sorted, and form the requested page. Page number and size are echoed. |
| Products.NameContainsIsKeyword | src/Services/ProductService.cs:139-140 | The search's unguarded `Contains` agrees with the listing's keyword filter on every non-null keyword. |
| Products.SearchPermutes | src/Services/ProductService.cs:138-151 | The search's keyword and price filters keep exactly the matching rows. |
| Products.OrderedSearch | src/Services/ProductService.cs:138-171 | Before paging, the search is a permutation of the matching products, sorted as requested. |
| Products.SearchProductsAsWritten | src/Services/ProductService.cs:136-180 | A null keyword throws. Otherwise the result is one page of at most `pageSize` matching, sorted products. |
| Products.NullKeywordSearchFails | src/Services/ProductService.cs:139-140 | A search with no keyword fails. |
| Products.SearchProducts | src/Services/ProductService.cs:136-180 | On non-null keywords it agrees with the code. A null keyword restricts nothing. The result is a sorted page of matching products. |
| Products.AddProduct | src/Services/ProductService.cs:85-104 | A null name throws and a taken id is refused. A named product with a fresh id is always added: the new row is stored under `id`, stamped `now`, copies the request, and has slug `GenerateSlug(name)`. |
| Products.UpdateProduct | src/Services/ProductService.cs:106-122 | Name, image, description and slug keep their old value when null. Quantity, price and category are overwritten. Id and creation time are kept. Other rows are unchanged. An unknown id gives null and the table is unchanged. |
| Products.UpdateKeepsSlug | src/Services/ProductService.cs:111-114 | Renaming does not regenerate the slug. |
| Products.UpdateOnlyPrice | src/Services/ProductService.cs:111-117 | An update whose nullable fields are all null, and which resends the stored quantity and category, changes the price and nothing else. |
| Products.UpdateOverwritesQuantityAndCategory | src/Services/ProductService.cs:111-117 | An update carrying only a price still overwrites quantity with 0 and category with the empty identifier. Name, image, description and slug are kept. |
| Products.UpdateIdempotent | src/Services/ProductService.cs:106-122 | Applying the same update twice equals applying it once. |
| Products.DeleteProduct | src/Services/ProductService.cs:124-134 | A present row is removed and returned, and other rows are unchanged. An absent id gives null and the table is unchanged. |
| Products.DeleteTwice | src/Services/ProductService.cs:124-134 | A second delete of the same id returns null. |
| Products.AddThenDelete | src/Services/ProductService.cs:85-134 | Deleting a product just added restores the table and returns that product. |
| Users.UserOrderOfSpec | src/Services/UserService.cs:33-48 | `sortBy` is case-insensitive: "date" selects creation time and any other non-empty value selects the username. A null or empty `sortBy` means creation time ascending, whatever the direction flag. |
| Users.UserLePreorder | src/Services/UserService.cs:37-42 | Both user orderings are total preorders. |
| Users.OrderedUsers | src/Services/UserService.cs:26-48 | Before paging, the user listing is a permutation of the non-admin users matching the keyword, sorted as requested. |
| Users.DtosListed | src/Services/UserService.cs:59 | The DTOs of listed users are non-admin and match the keyword. |
| Users.ListUsers | src/Services/UserService.cs:24-69 | No item is an admin and every item matches the keyword. `TotalCount` counts the matching non-admins. Items are at most `pageSize`, sorted, and are the DTOs of the requested page. |
| Users.CreateUser | src/Services/UserService.cs:79-102 | A create succeeds exactly when the id is not taken. Then the stored password is `hash(password)`, every other field (admin and banned flags included) is copied, and the row is stamped `now`. |
| Users.MergeFlag | src/Services/UserService.cs:116-139 | The three-branch flag update equals "the supplied value if present, else the old one". |
| Users.UpdateUser | src/Services/UserService.cs:104-146 | Each null field keeps its old value and each supplied field replaces it. Email, password, id and creation time are unchanged, and so are other rows. A null request or unknown id gives null and the table is unchanged. |
| Users.EmptyUpdateIsIdentity | src/Services/UserService.cs:109-139 | An all-null update returns the user unchanged and leaves the table as it was. |
| Users.BanUnbanUser | src/Services/UserService.cs:148-159 | The banned flag of the one user is flipped and nothing else changes. An unknown id gives null and the table is unchanged. |
| Users.BanUnbanTwice | src/Services/UserService.cs:152-156 | Toggling twice restores the table. |
| Users.DeleteUser | src/Services/UserService.cs:160-171 | A present user is removed and returned, and other rows are unchanged. An absent id gives null and the table is unchanged. |
| Users.CreateThenDelete | src/Services/UserService.cs:79-171 | Deleting a user just signed up restores the table and returns that user. |
| Users.Login | src/Services/UserService.cs:173-201 | No user with the email gives null. Several throw. With one user, a `Failed` verification gives null and any other verdict gives that user's DTO. The DTO carries the email and no password. |
| Users.SignUpThenLogin | src/Services/UserService.cs:79-201 | A new user with an untaken email logs in with the same password when the hasher accepts its own hash. |
| Categories.CategoryLePreorder | src/Services/CategoryService.cs:25-29 | Both category orderings are total preorders. |
| Categories.OrderedCategories | src/Services/CategoryService.cs:19-30 | Before paging, the listing is a permutation of the categories matching the keyword, sorted. |
| Categories.CategoryPage | src/Services/CategoryService.cs:32-44 | `TotalCount` is the number of matches. Items are at most `pageSize`, all match, are sorted, and form the requested page. |
| Categories.ListCategoriesAsWritten | src/Services/CategoryService.cs:15-46 | A null `sortBy` throws. An empty one sorts by creation time ascending. Any non-empty value sorts by name in the requested direction. |
| Categories.NullSortByFails | src/Services/CategoryService.cs:23 | Listing categories with no sort field fails. |
| Categories.ListCategories | src/Services/CategoryService.cs:15-46 | Agrees with the code whenever `sortBy` is given. A null `sortBy` gives exactly the creation-time-ascending page, with page number and size echoed. The result is a page of matching categories with their count. |
| Categories.CreateCategory | src/Services/CategoryService.cs:53-65 | A create succeeds exactly when the id is not taken. Then the new row copies name and description and is stamped `now`. |
| Categories.UpdateCategory | src/Services/CategoryService.cs:67-80 | Name and description are overwritten unconditionally, and id and creation time are kept. An unknown id gives null and the table is unchanged. |
| Categories.UpdateIdempotent | src/Services/CategoryService.cs:67-80 | Applying the same update twice equals applying it once. |
| Categories.DeleteCategory | src/Services/CategoryService.cs:82-92 | Returns true exactly when the row existed. Only that row is removed. |
| Categories.DeleteTwice | src/Services/CategoryService.cs:82-92 | A repeated delete returns false. |
| Categories.CreateListDelete | src/Services/CategoryService.cs:15-92 | For any table and any rows that enumerate it after a create, a one-page listing keyed by the new name, with an empty sort field, succeeds as the code is written and shows the new category and counts it. When the table was empty it shows that category alone, with count 1. Deleting it gives back the old table. |
| OrderController.Handle | src/Controllers/OrderController.cs:19-185 | A missing or empty claim gives Unauthorized before any check the action body makes. Then, where checked, a non-Guid claim gives BadRequest. Then a non-Guid order id gives BadRequest. The service is called exactly when all checks pass. `false` or null maps to NotFound. Self-service actions (my orders, create, update mine, delete mine) pass the parsed user id. Admin actions pass only the order id. Listing all orders always answers Ok. Create and add-product answer Created. |
| OrderController.AdminIgnoresClaimFormat | src/Controllers/OrderController.cs:95-114 | The admin update and delete never parse the claim. |
| OrderController.AddProductOnlyNeedsClaim | src/Controllers/OrderController.cs:82-93 | Adding a product checks only claim presence and never gives NotFound or BadRequest. |
| OrderController.SelfServiceCarriesUser | src/Controllers/OrderController.cs:162-185 | The self-service delete passes the caller's id. The admin delete of the same order passes only the order id. |

## Findings

| source | as written | input that shows it | evidently intended | confidence | as-written member | corrected member |
|---|---|---|---|---|---|---|
| src/Services/CategoryService.cs:23 | `sortBy.ToLower()` is evaluated before the emptiness test, and `sortBy` defaults to null | `GET /api/categories` with no `sortBy` (the controller passes the null query value) | a null `sortBy` sorts by creation time ascending, as in the product and user listings | high; not executed | Categories.ListCategoriesAsWritten (shown by Categories.NullSortByFails) | Categories.ListCategories |
| src/Services/ProductService.cs:139-140 | `searchKeyword.ToLower()` is evaluated without a null check | `GET /api/products/search` with no `keyword` | a null keyword restricts nothing, as in `GetAllProductService` | medium (the query provider evaluates the call while building the query); not executed | Products.SearchProductsAsWritten (shown by Products.NullKeywordSearchFails) | Products.SearchProducts |

## Left out

- Persistence plumbing is not modelled: async, `SaveChangesAsync`, `Include`, SQL translation and logging. Every operation is one atomic transition.
- Database constraints are not modelled; the schema migrations are not part of this model. This covers the NOT NULL image column, which `AddProduct` with a null image would violate. It covers the `CategoryId` foreign key, which an add or update naming an unknown category would violate. It also covers what deleting a category does to its products.
- AutoMapper is not modelled. The user listing's DTO is taken to have the same fields as the one login builds. Category create and update return the stored category rather than a mapped `CategoryModel`.
- Lower-casing is ASCII only. .NET's culture-sensitive Unicode `ToLower` is not modelled.
- Names are ordered by code point. The database's collation may differ.
- `decimal` is an exact `int` and `DateTime` is an integer tick count.
- `Guid.TryParse` is an arbitrary function parameter. Its format rules are not modelled.
- The password hasher is a pair of function parameters. Its only property is the one `Users.SignUpThenLogin` requires: it accepts its own hash.
- Role attributes (`Admin`, `notBanned`), JWT issuance, and the order service (ownership rules included) are framework or unseen code. The order service's answers are a parameter.
- `GetProductById`, `GetUserById` and `GetCategoryById` are not modelled. They are single key lookups.
- The other controllers and the customer-order service and controller are not modelled. They are routing glue or a dead variant.
- Products.ListProducts: the 32-bit overflow of `(pageNumber - 1) * pageSize` for huge page numbers is not modelled, because the offset is computed on unbounded integers.
- Users.ListUsers: the same 32-bit overflow of the offset is not modelled.
- Categories.ListCategories: the same 32-bit overflow of the offset is not modelled.
- Listing.Page: the offset `(pageNumber - 1) * pageSize` is an unbounded integer. The code computes it in 32-bit `int`, which wraps for huge page numbers (page 1073741825 of size 4 wraps to offset 0 and gives the first page); that wrap is not modelled.
- Products.SearchProductsAsWritten: the same 32-bit overflow of `(page - 1) * pageSize` is not modelled.
- Products.SearchProducts: the same 32-bit overflow of the offset is not modelled.
- Categories.CategoryPage: the same 32-bit overflow of the offset is not modelled.
- Categories.ListCategoriesAsWritten: the same 32-bit overflow of the offset is not modelled.
- Listing.PageLocates: it speaks of one fixed order of the result. Each page is a separate query, and rows with equal sort keys may come back in a different order on each request, so pages requested separately need not cover the result or may repeat a row.
- Categories.CreateCategory: the category's name and description are non-null strings. A null value in the request is not modelled.
- Categories.UpdateCategory: the request's name and description are non-null strings, so the model does not show that a null field is stored as null rather than kept (CategoryService.cs:72-73 assigns without `??`). Modelling it would make the stored name nullable, and the listing lower-cases and compares that name.
- OrderController.Handle: the `Guid`-typed arguments of `GetOrderById` (order id) and `AddProductToOrder` (order id and product id) are bound by the framework before the action runs. A malformed one gives 400 ahead of the action's own claim check, and that is not modelled.
- Users.CreateUser: every string field of the request is non-null. A null password would throw inside the hasher, and that is not modelled.

=== FILE: basics.dfy ===
/** Shared vocabulary of the service layer: nullable values, thrown errors,
    identifiers, timestamps and the decimal range. */
module Basics {

  /** A C# nullable value: `None` stands for `null`. */
  datatype Option<+T> = None | Some(value: T) {

    /** The `??` operator: the carried value, or `default` when null. */
    function GetOr(default: T): T
    {
      match this
      case Some(v) => v
      case None => default
    }
  }

  /** The outcome of an operation that may throw instead of returning. */
  datatype Result<+T, +E> = Success(value: T) | Failure(error: E)

  /** The exceptions the modelled services can raise. */
  datatype Error =
    | NullReference    // a method was called on a null string
    | DuplicateKey     // the primary key of a new row is already taken
    | MultipleMatches  // `SingleOrDefault` found more than one row

  /** A database identifier (`System.Guid`); only equality matters. */
  datatype Guid = Guid(bits: nat)

  /** A `DateTime`, as a tick count; only its order matters. */
  type Timestamp = int

  /** `decimal.MaxValue`, the default upper price bound. Prices are exact
      integers here. */
  const DecimalMaxValue: int := 79228162514264337593543950335
}

=== FILE: categories.dfy ===
/** `CategoryService`: the category listing and create / update / delete
    over the category table. */
module Categories {
  import opened Basics
  import opened Text
  import opened Listing

  /** A row of the `Categories` table. */
  datatype Category = Category(
    categoryId: Guid,
    name: string,
    description: string,
    createdAt: Timestamp)

  /** The create / update request body. */
  datatype CategoryModel = CategoryModel(name: string, description: string)

  type CategoryStore = map<Guid, Category>

  ghost predicate WellKeyed(store: CategoryStore)
  {
    forall id :: id in store ==> store[id].categoryId == id
  }

  // ------------------------------------------------------------- listing

  /** By name in the given direction, or by creation time ascending. */
  datatype CategoryOrder = ByName(ascending: bool) | ByCreatedAt

  function CategoryLe(o: CategoryOrder): (Category, Category) -> bool
  {
    (a: Category, b: Category) =>
      match o
      case ByName(asc) => if asc then StrLe(a.name, b.name) else StrLe(b.name, a.name)
      case ByCreatedAt => a.createdAt <= b.createdAt
  }

  lemma CategoryLePreorder(o: CategoryOrder)
    ensures TotalPreorder(CategoryLe(o))
  {
    var le := CategoryLe(o);
    forall a, b ensures le(a, b) || le(b, a) {
      StrLeTotal(a.name, b.name);
    }
    forall a, b, c | le(a, b) && le(b, c) ensures le(a, c) {
      if o.ByName? {
        if o.ascending {
          StrLeTransitive(a.name, b.name, c.name);
        } else {
          StrLeTransitive(c.name, b.name, a.name);
        }
      }
    }
  }

  function NameMatches(keyword: Option<string>): Category -> bool
  {
    (c: Category) => KeywordMatches(keyword, c.name)
  }

  /** The category query before paging: keyword, then `OrderBy`. */
  function OrderedCategories(rows: seq<Category>, keyword: Option<string>, o: CategoryOrder): (r: seq<Category>)
    ensures multiset(r) == multiset(Filter(rows, NameMatches(keyword)))
    ensures Sorted(r, CategoryLe(o))
  {
    CategoryLePreorder(o);
    SortBySorted(Filter(rows, NameMatches(keyword)), CategoryLe(o));
    SortBy(Filter(rows, NameMatches(keyword)), CategoryLe(o))
  }

  /** One page of the matching categories in order `o`, with the number of
      matches before paging. */
  function CategoryPage(rows: seq<Category>, pageNumber: int, pageSize: int,
                        keyword: Option<string>, o: CategoryOrder): (r: PaginationResult<Category>)
    requires pageNumber >= 1 && pageSize >= 1
    ensures r.pageNumber == pageNumber && r.pageSize == pageSize
    ensures r.totalCount == |Filter(rows, NameMatches(keyword))|
    ensures |r.items| <= pageSize
    ensures forall c :: c in r.items ==> c in rows && NameMatches(keyword)(c)
    ensures Sorted(r.items, CategoryLe(o))
    ensures r.items == Page(OrderedCategories(rows, keyword, o), pageNumber, pageSize)
  {
    var ordered := OrderedCategories(rows, keyword, o);
    PageOfSorted(ordered, pageNumber, pageSize, CategoryLe(o));
    assert |ordered| == |multiset(ordered)|;
    assert forall c :: c in ordered ==> c in multiset(Filter(rows, NameMatches(keyword)));
    PaginationResult(Page(ordered, pageNumber, pageSize), |ordered|, pageNumber, pageSize)
  }

  /** `GetAllCategoryService` as written: `sortBy.ToLower()` is evaluated
      before the emptiness test, so a null `sortBy` throws. A non-empty one
      sorts by name whatever it says; an empty one by creation time. */
  function ListCategoriesAsWritten(rows: seq<Category>, pageNumber: int, pageSize: int,
                                   keyword: Option<string>, sortBy: Option<string>, isAscending: bool)
    : (r: Result<PaginationResult<Category>, Error>)
    requires pageNumber >= 1 && pageSize >= 1
    ensures sortBy.None? <==> r == Failure(NullReference)
    ensures sortBy.Some? && sortBy.value == "" ==>
      r == Success(CategoryPage(rows, pageNumber, pageSize, keyword, ByCreatedAt))
    ensures sortBy.Some? && sortBy.value != "" ==>
      r == Success(CategoryPage(rows, pageNumber, pageSize, keyword, ByName(isAscending)))
  {
    if sortBy.None? then Failure(NullReference)
    else
      var lowered := Lower(sortBy.value);
      assert |lowered| == |sortBy.value|;
      var o := if lowered != "" then ByName(isAscending) else ByCreatedAt;
      Success(CategoryPage(rows, pageNumber, pageSize, keyword, o))
  }

  /** The first page of categories without a sort field fails. */
  lemma NullSortByFails(rows: seq<Category>)
    ensures ListCategoriesAsWritten(rows, 1, 10, None, None, true).Failure?
  {
  }

  /** `GetAllCategoryService` as evidently intended: a null `sortBy` behaves
      like an empty one (creation time ascending), as in the product and
      user listings. */
  function ListCategories(rows: seq<Category>, pageNumber: int, pageSize: int,
                          keyword: Option<string>, sortBy: Option<string>, isAscending: bool)
    : (r: PaginationResult<Category>)
    requires pageNumber >= 1 && pageSize >= 1
    ensures sortBy.Some? ==> Success(r) == ListCategoriesAsWritten(rows, pageNumber, pageSize, keyword, sortBy, isAscending)
    ensures sortBy.None? ==> r == CategoryPage(rows, pageNumber, pageSize, keyword, ByCreatedAt)
    ensures r.pageNumber == pageNumber && r.pageSize == pageSize
    ensures r.totalCount == |Filter(rows, NameMatches(keyword))|
    ensures |r.items| <= pageSize
    ensures forall c :: c in r.items ==> c in rows && KeywordMatches(keyword, c.name)
    ensures sortBy.None? || sortBy.value == "" ==> Sorted(r.items, CategoryLe(ByCreatedAt))
    ensures sortBy.Some? && sortBy.value != "" ==> Sorted(r.items, CategoryLe(ByName(isAscending)))
  {
    ListCategoriesAsWritten(rows, pageNumber, pageSize, keyword, Some(sortBy.GetOr("")), isAscending).value
  }

  // ---------------------------------------------------------------- CRUD

  /** `CreateCategoryService`: a new row under the fresh identifier `id`,
      copying name and description and stamped `now`. */
  function CreateCategory(store: CategoryStore, m: CategoryModel, id: Guid, now: Timestamp)
    : (r: Result<(CategoryStore, Category), Error>)
    ensures id in store <==> r == Failure(DuplicateKey)
    ensures id !in store ==> r.Success?
    ensures r.Success? ==>
      var (store', c) := r.value;
      store' == store[id := c] && c == Category(id, m.name, m.description, now)
    ensures r.Success? && WellKeyed(store) ==> WellKeyed(r.value.0)
  {
    if id in store then Failure(DuplicateKey)
    else
      var c := Category(id, m.name, m.description, now);
      Success((store[id := c], c))
  }

  /** `UpdateCategoryService`: name and description are overwritten
      unconditionally; identifier and creation time are kept. An unknown
      identifier yields null and leaves the table alone. */
  function UpdateCategory(store: CategoryStore, id: Guid, m: CategoryModel): (r: (CategoryStore, Option<Category>))
    ensures id !in store ==> r == (store, None)
    ensures id in store ==>
      && r.1 == Some(Category(store[id].categoryId, m.name, m.description, store[id].createdAt))
      && r.0 == store[id := r.1.value]
    ensures WellKeyed(store) ==> WellKeyed(r.0)
  {
    if id !in store then (store, None)
    else
      var c := store[id].(name := m.name, description := m.description);
      (store[id := c], Some(c))
  }

  /** Sending the same update twice is the same as sending it once. */
  lemma UpdateIdempotent(store: CategoryStore, id: Guid, m: CategoryModel)
    ensures var (once, c) := UpdateCategory(store, id, m);
            UpdateCategory(once, id, m) == (once, c)
  {
    var (once, c) := UpdateCategory(store, id, m);
    if id in store {
      assert once[id := c.value] == once;
    }
  }

  /** `DeleteCategoryService`: true and the row removed exactly when it
      existed; false and the table unchanged otherwise. */
  function DeleteCategory(store: CategoryStore, id: Guid): (r: (CategoryStore, bool))
    ensures r.1 <==> id in store
    ensures r.0.Keys == store.Keys - {id}
    ensures forall k :: k in r.0 ==> r.0[k] == store[k]
  {
    if id in store then (store - {id}, true) else (store, false)
  }

  /** A repeated delete reports false. */
  lemma DeleteTwice(store: CategoryStore, id: Guid)
    ensures !DeleteCategory(DeleteCategory(store, id).0, id).1
  {
  }

  /** `rows` is what the table `store` holds: each stored category once. */
  ghost predicate Enumerates(rows: seq<Category>, store: CategoryStore)
  {
    |rows| == |store| && forall c :: c in rows <==> c in store.Values
  }

  /** Create a category, list it, delete it. Whatever the table held
      before, a listing of the new table with the new name as keyword, an
      empty sort field and one page as large as the table succeeds as
      written and shows the new category; when the table was empty it shows
      that category alone. Deleting it gives back the table as it was. */
  lemma CreateListDelete(store: CategoryStore, m: CategoryModel, id: Guid, now: Timestamp, rows: seq<Category>)
    requires id !in store
    requires Enumerates(rows, CreateCategory(store, m, id, now).value.0)
    ensures var (created, c) := CreateCategory(store, m, id, now).value;
            && 1 <= |rows|
            && var listed := ListCategories(rows, 1, |rows|, Some(m.name), Some(""), true);
            && ListCategoriesAsWritten(rows, 1, |rows|, Some(m.name), Some(""), true) == Success(listed)
            && c in listed.items
            && listed.totalCount >= 1
            && (store == map[] ==> listed.items == [c] && listed.totalCount == 1)
            && DeleteCategory(created, id) == (store, true)
  {
    var (created, c) := CreateCategory(store, m, id, now).value;
    CreatedIsEnumerated(store, m, id, now, rows);
    var kw := Some(m.name);
    ContainsSelf(Lower(m.name));
    assert NameMatches(kw)(c);
    WholeListing(rows, kw);
    assert c in Filter(rows, NameMatches(kw));
    if store == map[] {
      SingleListing(c, kw);
    }
  }

  /** The new category is among the rows of the new table, which are just
      that category when the table was empty; removing it again gives back
      the old table. */
  lemma CreatedIsEnumerated(store: CategoryStore, m: CategoryModel, id: Guid, now: Timestamp, rows: seq<Category>)
    requires id !in store
    requires Enumerates(rows, CreateCategory(store, m, id, now).value.0)
    ensures var (created, c) := CreateCategory(store, m, id, now).value;
            && c in rows
            && (store == map[] ==> rows == [c])
            && created - {id} == store
  {
    var (created, c) := CreateCategory(store, m, id, now).value;
    assert created[id] == c;
    if store == map[] {
      assert created.Keys == {id};
      assert |rows| == 1;
      assert rows[0] in created.Values;
    }
    assert created - {id} == store;
  }

  /** A page as large as the table holds every match, in listing order. */
  lemma WholeListing(rows: seq<Category>, keyword: Option<string>)
    requires 1 <= |rows|
    ensures var listed := ListCategories(rows, 1, |rows|, keyword, Some(""), true);
            && listed.items == OrderedCategories(rows, keyword, ByCreatedAt)
            && multiset(listed.items) == multiset(Filter(rows, NameMatches(keyword)))
  {
    var ordered := OrderedCategories(rows, keyword, ByCreatedAt);
    assert |ordered| <= |rows| by {
      assert |ordered| == |multiset(ordered)| == |multiset(Filter(rows, NameMatches(keyword)))|;
    }
    var listed := ListCategories(rows, 1, |rows|, keyword, Some(""), true);
    assert listed == CategoryPage(rows, 1, |rows|, keyword, ByCreatedAt);
    assert listed.items == Page(ordered, 1, |rows|);
    FirstPageWhole(ordered, |rows|);
  }

  /** A single matching category is listed alone. */
  lemma SingleListing(c: Category, keyword: Option<string>)
    requires NameMatches(keyword)(c)
    ensures OrderedCategories([c], keyword, ByCreatedAt) == [c]
  {
    assert Filter([c], NameMatches(keyword)) == [c];
    var ordered := OrderedCategories([c], keyword, ByCreatedAt);
    assert multiset(ordered) == multiset{c};
    assert |ordered| == 1;
    assert c in multiset(ordered);
  }

  /** Every string contains itself. */
  lemma ContainsSelf(s: string)
    ensures Contains(s, s)
  {
    assert s[..|s|] == s;
  }
}

=== FILE: listing.dfy ===
/** The filter / sort / paginate engine shared by the three listing
    services, over an in-memory sequence of rows. */
module Listing {

  /** What a listing returns: one page of items, the number of rows that
      matched before paging, and the requested page coordinates. */
  datatype PaginationResult<T> = PaginationResult(
    items: seq<T>,
    totalCount: nat,
    pageNumber: int,
    pageSize: int)

  /** `le` is a total preorder: any two elements are comparable and the
      relation is transitive. Ties are allowed (equal prices, equal names). */
  ghost predicate TotalPreorder<T(!new)>(le: (T, T) -> bool)
  {
    && (forall a, b :: le(a, b) || le(b, a))
    && (forall a, b, c :: le(a, b) && le(b, c) ==> le(a, c))
  }

  /** Every earlier element is `le` every later one. */
  ghost predicate Sorted<T>(s: seq<T>, le: (T, T) -> bool)
  {
    forall i, j :: 0 <= i < j < |s| ==> le(s[i], s[j])
  }

  /** `Where(p)`: the rows satisfying `p`, in their original order. */
  function Filter<T(!new)>(s: seq<T>, p: T -> bool): (r: seq<T>)
    ensures |r| <= |s|
    ensures forall x :: multiset(r)[x] == if p(x) then multiset(s)[x] else 0
    ensures forall x :: x in r <==> x in s && p(x)
  {
    if |s| == 0 then []
    else
      assert s == [s[0]] + s[1..];
      if p(s[0]) then [s[0]] + Filter(s[1..], p) else Filter(s[1..], p)
  }

  /** Filtering keeps the relative order of the rows it keeps, so it keeps
      a sorted sequence sorted (a `Where` after an `OrderBy`). */
  lemma {:induction false} FilterKeepsSorted<T(!new)>(s: seq<T>, p: T -> bool, le: (T, T) -> bool)
    requires Sorted(s, le)
    ensures Sorted(Filter(s, p), le)
  {
    if |s| > 0 {
      FilterKeepsSorted(s[1..], p, le);
      if p(s[0]) {
        var r := Filter(s, p);
        forall i, j | 0 <= i < j < |r|
          ensures le(r[i], r[j])
        {
          if i == 0 {
            assert r[j] in Filter(s[1..], p);
            var k :| 0 <= k < |s[1..]| && s[1..][k] == r[j];
            assert s[k + 1] == r[j];
          }
        }
      }
    }
  }

  /** Inserts `x` before the first element it is `le`. */
  function Insert<T>(x: T, s: seq<T>, le: (T, T) -> bool): (r: seq<T>)
    ensures multiset(r) == multiset(s) + multiset{x}
  {
    if |s| == 0 then [x]
    else if le(x, s[0]) then [x] + s
    else
      assert s == [s[0]] + s[1..];
      [s[0]] + Insert(x, s[1..], le)
  }

  /** `OrderBy` / `OrderByDescending`: a rearrangement of the rows. The
      database gives no tie order, so only sortedness and the permutation
      are promised; insertion sort is one order that meets both. */
  function SortBy<T>(s: seq<T>, le: (T, T) -> bool): (r: seq<T>)
    ensures multiset(r) == multiset(s)
  {
    if |s| == 0 then []
    else
      assert s == [s[0]] + s[1..];
      Insert(s[0], SortBy(s[1..], le), le)
  }

  lemma {:induction false} InsertKeepsSorted<T(!new)>(x: T, s: seq<T>, le: (T, T) -> bool)
    requires TotalPreorder(le)
    requires Sorted(s, le)
    ensures Sorted(Insert(x, s, le), le)
  {
    if |s| > 0 && !le(x, s[0]) {
      InsertKeepsSorted(x, s[1..], le);
      var r := Insert(x, s, le);
      assert le(s[0], x);
      forall j | 0 < j < |r|
        ensures le(r[0], r[j])
      {
        assert r[j] in multiset(Insert(x, s[1..], le));
        if r[j] != x {
          assert r[j] in s[1..];
        }
      }
    }
  }

  /** The sort's result is sorted whenever `le` is a total preorder. */
  lemma {:induction false} SortBySorted<T(!new)>(s: seq<T>, le: (T, T) -> bool)
    requires TotalPreorder(le)
    ensures Sorted(SortBy(s, le), le)
  {
    if |s| > 0 {
      SortBySorted(s[1..], le);
      InsertKeepsSorted(s[0], SortBy(s[1..], le), le);
    }
  }

  function Min(a: int, b: int): int { if a <= b then a else b }

  /** The number of rows skipped before page `pageNumber`. */
  function Offset(pageNumber: int, pageSize: int): (n: nat)
    requires pageNumber >= 1 && pageSize >= 1
  {
    var k: nat := pageNumber - 1;
    k * pageSize
  }

  /** `Skip((pageNumber - 1) * pageSize).Take(pageSize)`. */
  function Page<T>(s: seq<T>, pageNumber: int, pageSize: int): (r: seq<T>)
    requires pageNumber >= 1 && pageSize >= 1
    ensures |r| <= pageSize
    ensures |r| == if Offset(pageNumber, pageSize) >= |s| then 0
                   else Min(pageSize, |s| - Offset(pageNumber, pageSize))
    ensures forall k :: 0 <= k < |r| ==> r[k] == s[Offset(pageNumber, pageSize) + k]
  {
    var skip := Offset(pageNumber, pageSize);
    if skip >= |s| then [] else s[skip..Min(skip + pageSize, |s|)]
  }

  /** A first page at least as large as the sequence is the whole sequence. */
  lemma FirstPageWhole<T>(s: seq<T>, pageSize: int)
    requires pageSize >= 1 && |s| <= pageSize
    ensures Page(s, 1, pageSize) == s
  {
    assert Offset(1, pageSize) == 0;
  }

  /** Every row is reachable: row `i` is item `i % pageSize` of page
      `i / pageSize + 1`. */
  lemma PageLocates<T>(s: seq<T>, pageSize: int, i: int)
    requires pageSize >= 1 && 0 <= i < |s|
    ensures var p := Page(s, i / pageSize + 1, pageSize);
            i % pageSize < |p| && p[i % pageSize] == s[i]
  {
    var q, m := i / pageSize, i % pageSize;
    assert q * pageSize + m == i;
    assert Offset(q + 1, pageSize) == q * pageSize;
  }

  /** A page of a sorted sequence is sorted, and holds only its rows. */
  lemma PageOfSorted<T>(s: seq<T>, pageNumber: int, pageSize: int, le: (T, T) -> bool)
    requires pageNumber >= 1 && pageSize >= 1
    requires Sorted(s, le)
    ensures Sorted(Page(s, pageNumber, pageSize), le)
    ensures forall x :: x in Page(s, pageNumber, pageSize) ==> x in s
  {
    var r := Page(s, pageNumber, pageSize);
    var skip := Offset(pageNumber, pageSize);
    forall i, j | 0 <= i < j < |r| ensures le(r[i], r[j]) {
      assert r[i] == s[skip + i] && r[j] == s[skip + j];
    }
    forall x | x in r ensures x in s {
      var k :| 0 <= k < |r| && r[k] == x;
      assert s[skip + k] == x;
    }
  }

  /** `Select(f)`. */
  function MapSeq<T, U>(s: seq<T>, f: T -> U): (r: seq<U>)
    ensures |r| == |s|
    ensures forall i :: 0 <= i < |s| ==> r[i] == f(s[i])
  {
    seq(|s|, i requires 0 <= i < |s| => f(s[i]))
  }

  /** Projecting rows to DTOs keeps them sorted when the DTO comparator
      agrees with the row comparator. */
  lemma MapKeepsSorted<T, U>(s: seq<T>, f: T -> U, le: (T, T) -> bool, le': (U, U) -> bool)
    requires Sorted(s, le)
    requires forall i, j :: 0 <= i < j < |s| && le(s[i], s[j]) ==> le'(f(s[i]), f(s[j]))
    ensures Sorted(MapSeq(s, f), le')
  {
  }
}

=== FILE: order_controller.dfy ===
/** `OrderController`: the order in which each action checks the token's
    user-id claim, the claim's format and the order id's format, and how the
    order service's answer becomes a response. Role attributes and the order
    service itself are outside the model: the service's answer is a
    parameter. */
module OrderController {
  import opened Basics

  /** The controller actions with their route arguments. Route arguments
      typed `Guid` are bound by the framework; those typed `string` are
      parsed by the action. */
  datatype Action =
    | GetAllOrder
    | GetMyOrders
    | GetOrderById(orderId: Guid)
    | CreateOrder
    | AddProductToOrder(orderId: Guid, productId: Guid)
    | UpdateOrder(orderIdText: string)
    | UpdateMyOrder(orderIdText: string)
    | DeleteOrder(orderIdText: string)
    | DeleteMyOrder(orderIdText: string)

  /** The order-service call an action makes, with the arguments it passes. */
  datatype ServiceCall =
    | GetAllOrdersCall
    | GetMyOrdersCall(userId: Guid)
    | GetOrderByIdCall(orderId: Guid)
    | CreateOrderCall(userId: Guid)
    | AddProductCall(orderId: Guid, productId: Guid)
    | UpdateOrderCall(orderId: Guid)
    | UpdateMyOrderCall(userId: Guid, orderId: Guid)
    | DeleteOrderCall(orderId: Guid)
    | DeleteMyOrderCall(userId: Guid, orderId: Guid)

  /** The response kinds: the three thrown exceptions, and the success
      envelopes. */
  datatype Status = Unauthorized | BadRequest | NotFound | Ok | Created | Updated | Deleted

  /** What the action answers, and the service call it made (if any). */
  datatype Response = Response(status: Status, call: Option<ServiceCall>)

  /** Actions that read the NameIdentifier claim. */
  predicate ReadsClaim(a: Action)
  {
    !(a.GetAllOrder? || a.GetOrderById?)
  }

  /** Actions that parse the claim as a Guid. */
  predicate ParsesClaim(a: Action)
  {
    a.GetMyOrders? || a.CreateOrder? || a.UpdateMyOrder? || a.DeleteMyOrder?
  }

  /** Actions that parse a string order id. */
  predicate ParsesOrderId(a: Action)
  {
    a.UpdateOrder? || a.UpdateMyOrder? || a.DeleteOrder? || a.DeleteMyOrder?
  }

  /** `string.IsNullOrEmpty` on the claim's value. */
  predicate ClaimPresent(claim: Option<string>)
  {
    claim.Some? && claim.value != ""
  }

  /** Every check the action makes passes, so it reaches the service. */
  predicate ChecksPass(a: Action, claim: Option<string>, parse: string -> Option<Guid>)
  {
    && (ReadsClaim(a) ==> ClaimPresent(claim))
    && (ParsesClaim(a) ==> parse(claim.value).Some?)
    && (ParsesOrderId(a) ==> parse(a.orderIdText).Some?)
  }

  /** A service call's answer mapped to a response: `false` (or null) is
      Not Found, `true` (or an order) is the action's success envelope. */
  function Answer(call: ServiceCall, found: bool, success: Status): Response
  {
    Response(if found then success else NotFound, Some(call))
  }

  /** One request to one action. `claim` is the NameIdentifier claim of the
      token (None when absent), `parse` is `Guid.TryParse`, and `service`
      says whether the service call returns true (or non-null). */
  function Handle(a: Action, claim: Option<string>, parse: string -> Option<Guid>,
                  service: ServiceCall -> bool): (r: Response)
    // a missing or empty claim is rejected first, before any parse or call
    ensures ReadsClaim(a) && !ClaimPresent(claim) ==> r == Response(Unauthorized, None)
    // then a claim that is not a Guid, where the action parses it
    ensures ParsesClaim(a) && ClaimPresent(claim) && parse(claim.value).None?
        ==> r == Response(BadRequest, None)
    // then an order id that is not a Guid
    ensures (&& ParsesOrderId(a) && ClaimPresent(claim)
             && (ParsesClaim(a) ==> parse(claim.value).Some?)
             && parse(a.orderIdText).None?)
        ==> r == Response(BadRequest, None)
    // the service is called exactly when every check passes
    ensures r.call.Some? <==> ChecksPass(a, claim, parse)
    ensures r.call.None? ==> r.status in {Unauthorized, BadRequest}
    // the service's answer decides between Not Found and success
    ensures r.call.Some? && (a.UpdateOrder? || a.UpdateMyOrder?)
        ==> r.status == (if service(r.call.value) then Updated else NotFound)
    ensures r.call.Some? && (a.DeleteOrder? || a.DeleteMyOrder?)
        ==> r.status == (if service(r.call.value) then Deleted else NotFound)
    ensures r.call.Some? && (a.GetMyOrders? || a.GetOrderById?)
        ==> r.status == (if service(r.call.value) then Ok else NotFound)
    // self-service actions pass the token's user id, admin ones only the order id
    ensures r.call.Some? && a.UpdateMyOrder?
        ==> r.call.value == UpdateMyOrderCall(parse(claim.value).value, parse(a.orderIdText).value)
    ensures r.call.Some? && a.DeleteMyOrder?
        ==> r.call.value == DeleteMyOrderCall(parse(claim.value).value, parse(a.orderIdText).value)
    ensures r.call.Some? && a.GetMyOrders? ==> r.call.value == GetMyOrdersCall(parse(claim.value).value)
    ensures r.call.Some? && a.CreateOrder?
        ==> r == Response(Created, Some(CreateOrderCall(parse(claim.value).value)))
    ensures r.call.Some? && a.AddProductToOrder?
        ==> r == Response(Created, Some(AddProductCall(a.orderId, a.productId)))
    ensures a.GetAllOrder? ==> r == Response(Ok, Some(GetAllOrdersCall))
    ensures a.GetOrderById? ==> r.call == Some(GetOrderByIdCall(a.orderId))
    ensures r.call.Some? && a.UpdateOrder? ==> r.call.value == UpdateOrderCall(parse(a.orderIdText).value)
    ensures r.call.Some? && a.DeleteOrder? ==> r.call.value == DeleteOrderCall(parse(a.orderIdText).value)
  {
    match a
    case GetAllOrder =>
      Response(Ok, Some(GetAllOrdersCall))
    case GetOrderById(orderId) =>
      Answer(GetOrderByIdCall(orderId), service(GetOrderByIdCall(orderId)), Ok)
    case AddProductToOrder(orderId, productId) =>
      if !ClaimPresent(claim) then Response(Unauthorized, None)
      else Response(Created, Some(AddProductCall(orderId, productId)))
    case UpdateOrder(text) =>
      if !ClaimPresent(claim) then Response(Unauthorized, None)
      else if parse(text).None? then Response(BadRequest, None)
      else
        var call := UpdateOrderCall(parse(text).value);
        Answer(call, service(call), Updated)
    case DeleteOrder(text) =>
      if !ClaimPresent(claim) then Response(Unauthorized, None)
      else if parse(text).None? then Response(BadRequest, None)
      else
        var call := DeleteOrderCall(parse(text).value);
        Answer(call, service(call), Deleted)
    case GetMyOrders =>
      if !ClaimPresent(claim) then Response(Unauthorized, None)
      else if parse(claim.value).None? then Response(BadRequest, None)
      else
        var call := GetMyOrdersCall(parse(claim.value).value);
        Answer(call, service(call), Ok)
    case CreateOrder =>
      if !ClaimPresent(claim) then Response(Unauthorized, None)
      else if parse(claim.value).None? then Response(BadRequest, None)
      else Response(Created, Some(CreateOrderCall(parse(claim.value).value)))
    case UpdateMyOrder(text) =>
      if !ClaimPresent(claim) then Response(Unauthorized, None)
      else if parse(claim.value).None? then Response(BadRequest, None)
      else if parse(text).None? then Response(BadRequest, None)
      else
        var call := UpdateMyOrderCall(parse(claim.value).value, parse(text).value);
        Answer(call, service(call), Updated)
    case DeleteMyOrder(text) =>
      if !ClaimPresent(claim) then Response(Unauthorized, None)
      else if parse(claim.value).None? then Response(BadRequest, None)
      else if parse(text).None? then Response(BadRequest, None)
      else
        var call := DeleteMyOrderCall(parse(claim.value).value, parse(text).value);
        Answer(call, service(call), Deleted)
  }

  /** The admin update and delete never look at the claim's format: any two
      present claims give the same response. */
  lemma AdminIgnoresClaimFormat(a: Action, c1: string, c2: string, parse: string -> Option<Guid>,
                                service: ServiceCall -> bool)
    requires a.UpdateOrder? || a.DeleteOrder?
    requires c1 != "" && c2 != ""
    ensures Handle(a, Some(c1), parse, service) == Handle(a, Some(c2), parse, service)
  {
  }

  /** Adding a product to an order checks only that the claim is present:
      it never parses the claim and never answers Not Found. */
  lemma AddProductOnlyNeedsClaim(orderId: Guid, productId: Guid, claim: Option<string>,
                                 parse: string -> Option<Guid>, service: ServiceCall -> bool)
    ensures var r := Handle(AddProductToOrder(orderId, productId), claim, parse, service);
            && r.status != NotFound
            && r.status != BadRequest
            && (ClaimPresent(claim) <==> r == Response(Created, Some(AddProductCall(orderId, productId))))
  {
  }

  /** The self-service and the admin delete of the same order reach
      different service calls: only the former carries the caller's id. */
  lemma SelfServiceCarriesUser(text: string, claim: string, parse: string -> Option<Guid>,
                               service: ServiceCall -> bool)
    requires claim != "" && parse(claim).Some? && parse(text).Some?
    ensures Handle(DeleteMyOrder(text), Some(claim), parse, service).call
         == Some(DeleteMyOrderCall(parse(claim).value, parse(text).value))
    ensures Handle(DeleteOrder(text), Some(claim), parse, service).call
         == Some(DeleteOrderCall(parse(text).value))
  {
  }
}

=== FILE: products.dfy ===
/** `ProductService`: slug generation, the product listing and search
    pipelines, and create / update / delete over the product table. */
module Products {
  import opened Basics
  import opened Text
  import opened Listing

  /** A row of the `Products` table. `ImgUrl` is declared nullable; the
      description is copied from the request without a null check, so it is
      nullable here too. Prices are exact decimals. */
  datatype Product = Product(
    productId: Guid,
    imgUrl: Option<string>,
    productName: string,
    slug: string,
    description: Option<string>,
    quantity: int,
    price: int,
    categoryId: Guid,
    createdAt: Timestamp)

  /** The create / update request body; its string fields may be null. */
  datatype ProductModel = ProductModel(
    productName: Option<string>,
    imgUrl: Option<string>,
    description: Option<string>,
    slug: Option<string>,
    quantity: int,
    price: int,
    categoryId: Guid)

  /** The product table, keyed by `ProductID`. */
  type ProductStore = map<Guid, Product>

  /** Every row is stored under its own identifier. */
  ghost predicate WellKeyed(store: ProductStore)
  {
    forall id :: id in store ==> store[id].productId == id
  }

  // ---------------------------------------------------------------- slug

  /** `name.ToLower().Replace(" ", "-")`. */
  function GenerateSlug(name: string): (r: string)
    ensures |r| == |name|
    ensures forall i :: 0 <= i < |name| ==>
      r[i] == if name[i] == ' ' then '-' else LowerChar(name[i])
    ensures ' ' !in r
  {
    var lower := Lower(name);
    seq(|lower|, i requires 0 <= i < |lower| => if lower[i] == ' ' then '-' else lower[i])
  }

  /** A slug is its own slug. */
  lemma SlugIdempotent(name: string)
    ensures GenerateSlug(GenerateSlug(name)) == GenerateSlug(name)
  {
  }

  /** The worked example: "Red Shoes" becomes "red-shoes". */
  lemma SlugExample()
    ensures GenerateSlug("Red Shoes") == "red-shoes"
  {
  }

  // ------------------------------------------------------------- listing

  datatype SortKey = ByPrice | ByDate | ByName

  /** The order a listing asks for. */
  datatype ProductOrder = ProductOrder(key: SortKey, ascending: bool)

  /** The `switch (sortBy.ToLower())` of the listing and search. */
  function ProductOrderOf(sortBy: Option<string>, isAscending: bool): ProductOrder
  {
    if sortBy.None? || sortBy.value == "" then ProductOrder(ByDate, true)
    else
      match Lower(sortBy.value)
      case "price" => ProductOrder(ByPrice, isAscending)
      case "date" => ProductOrder(ByDate, isAscending)
      case _ => ProductOrder(ByName, isAscending)
  }

  /** The sort field name is case-insensitive, an absent one means creation
      time ascending, and an unknown one means by name. */
  lemma ProductOrderOfSpec(sortBy: string, isAscending: bool)
    ensures ProductOrderOf(Some(sortBy), isAscending) == ProductOrderOf(Some(Lower(sortBy)), isAscending)
    ensures sortBy == "" ==> ProductOrderOf(Some(sortBy), isAscending) == ProductOrderOf(None, isAscending)
    ensures ProductOrderOf(None, isAscending) == ProductOrder(ByDate, true)
    ensures ProductOrderOf(Some("Price"), isAscending) == ProductOrder(ByPrice, isAscending)
    ensures ProductOrderOf(Some("DATE"), isAscending) == ProductOrder(ByDate, isAscending)
    ensures Lower(sortBy) != "price" && Lower(sortBy) != "date" && sortBy != ""
        ==> ProductOrderOf(Some(sortBy), isAscending) == ProductOrder(ByName, isAscending)
  {
    LowerIdempotent(sortBy);
    assert Lower("Price") == "price";
    assert Lower("DATE") == "date";
  }

  /** The comparator `OrderBy` uses for an order: the chosen field, in the
      chosen direction. */
  function ProductLe(o: ProductOrder): (Product, Product) -> bool
  {
    (a: Product, b: Product) =>
      match o.key
      case ByPrice => if o.ascending then a.price <= b.price else b.price <= a.price
      case ByDate => if o.ascending then a.createdAt <= b.createdAt else b.createdAt <= a.createdAt
      case ByName =>
        if o.ascending then StrLe(a.productName, b.productName)
        else StrLe(b.productName, a.productName)
  }

  lemma ProductLePreorder(o: ProductOrder)
    ensures TotalPreorder(ProductLe(o))
  {
    var le := ProductLe(o);
    forall a, b ensures le(a, b) || le(b, a) {
      StrLeTotal(a.productName, b.productName);
    }
    forall a, b, c | le(a, b) && le(b, c) ensures le(a, c) {
      if o.key == ByName {
        if o.ascending {
          StrLeTransitive(a.productName, b.productName, c.productName);
        } else {
          StrLeTransitive(c.productName, b.productName, a.productName);
        }
      }
    }
  }

  /** Category restriction: a null or empty selection admits every
      category. */
  predicate CategorySelected(selected: Option<seq<Guid>>, categoryId: Guid)
  {
    selected.None? || |selected.value| == 0 || categoryId in selected.value
  }

  /** Lower price bound: applied only when it is present and positive
      (a lifted comparison with null is false). */
  predicate AboveMin(minPrice: Option<int>, price: int)
  {
    minPrice.Some? && minPrice.value > 0 ==> price >= minPrice.value
  }

  /** Upper price bound: applied only when it is present and below
      `decimal.MaxValue`. */
  predicate BelowMax(maxPrice: Option<int>, price: int)
  {
    maxPrice.Some? && maxPrice.value < DecimalMaxValue ==> price <= maxPrice.value
  }

  /** The parameters of `GetAllProductService`. */
  datatype ProductQuery = ProductQuery(
    selectedCategories: Option<seq<Guid>>,
    pageNumber: int,
    pageSize: int,
    searchKeyword: Option<string>,
    sortBy: Option<string>,
    isAscending: bool,
    minPrice: Option<int>,
    maxPrice: Option<int>)

  /** Which products the listing admits, stated all at once: the reference
      the step-by-step pipeline is proved against. */
  function ProductMatches(q: ProductQuery): Product -> bool
  {
    (p: Product) =>
      && KeywordMatches(q.searchKeyword, p.productName)
      && CategorySelected(q.selectedCategories, p.categoryId)
      && AboveMin(q.minPrice, p.price)
      && BelowMax(q.maxPrice, p.price)
  }

  function NameMatches(keyword: Option<string>): Product -> bool
  {
    (p: Product) => KeywordMatches(keyword, p.productName)
  }

  /** The conditional `Where(p.Price >= minPrice)`. */
  function ApplyMin(s: seq<Product>, minPrice: Option<int>): (r: seq<Product>)
    ensures forall x :: multiset(r)[x] == if AboveMin(minPrice, x.price) then multiset(s)[x] else 0
  {
    if minPrice.Some? && minPrice.value > 0 then Filter(s, (p: Product) => p.price >= minPrice.value)
    else s
  }

  /** The conditional `Where(p.Price <= maxPrice)`. */
  function ApplyMax(s: seq<Product>, maxPrice: Option<int>): (r: seq<Product>)
    ensures forall x :: multiset(r)[x] == if BelowMax(maxPrice, x.price) then multiset(s)[x] else 0
  {
    if maxPrice.Some? && maxPrice.value < DecimalMaxValue then Filter(s, (p: Product) => p.price <= maxPrice.value)
    else s
  }

  /** The price filters keep a sorted sequence sorted. */
  lemma BoundsKeepSorted(s: seq<Product>, minPrice: Option<int>, maxPrice: Option<int>,
                         le: (Product, Product) -> bool)
    requires Sorted(s, le)
    ensures Sorted(ApplyMin(s, minPrice), le)
    ensures Sorted(ApplyMax(ApplyMin(s, minPrice), maxPrice), le)
  {
    if minPrice.Some? && minPrice.value > 0 {
      FilterKeepsSorted(s, (p: Product) => p.price >= minPrice.value, le);
    }
    var aboveMin := ApplyMin(s, minPrice);
    if maxPrice.Some? && maxPrice.value < DecimalMaxValue {
      FilterKeepsSorted(aboveMin, (p: Product) => p.price <= maxPrice.value, le);
    }
  }

  function CategoryIn(selected: Option<seq<Guid>>): Product -> bool
  {
    (p: Product) => CategorySelected(selected, p.categoryId)
  }

  /** The query of `GetAllProductService` before paging, in the source's
      order: keyword, `OrderBy`, categories, lower bound, upper bound. */
  function ProductPipeline(rows: seq<Product>, q: ProductQuery, le: (Product, Product) -> bool): seq<Product>
  {
    var sorted := SortBy(Filter(rows, NameMatches(q.searchKeyword)), le);
    ApplyMax(ApplyMin(Filter(sorted, CategoryIn(q.selectedCategories)), q.minPrice), q.maxPrice)
  }

  /** Whatever the comparator, the pipeline keeps exactly the matching
      products, each as often as it occurs in the table. */
  lemma PipelinePermutes(rows: seq<Product>, q: ProductQuery, le: (Product, Product) -> bool)
    ensures multiset(ProductPipeline(rows, q, le)) == multiset(Filter(rows, ProductMatches(q)))
  {
    var named := Filter(rows, NameMatches(q.searchKeyword));
    var sorted := SortBy(named, le);
    var inCategories := Filter(sorted, CategoryIn(q.selectedCategories));
    var aboveMin := ApplyMin(inCategories, q.minPrice);
    var r := ApplyMax(aboveMin, q.maxPrice);
    var expected := Filter(rows, ProductMatches(q));
    forall x ensures multiset(r)[x] == multiset(expected)[x] {
      assert multiset(sorted)[x] == multiset(named)[x];
    }
    assert multiset(r) == multiset(expected);
  }

  /** The listing's rows before paging: a permutation of exactly the
      matching products, sorted in the requested order. */
  function OrderedProducts(rows: seq<Product>, q: ProductQuery): (r: seq<Product>)
    ensures multiset(r) == multiset(Filter(rows, ProductMatches(q)))
    ensures Sorted(r, ProductLe(ProductOrderOf(q.sortBy, q.isAscending)))
  {
    var le := ProductLe(ProductOrderOf(q.sortBy, q.isAscending));
    var sorted := SortBy(Filter(rows, NameMatches(q.searchKeyword)), le);
    ProductLePreorder(ProductOrderOf(q.sortBy, q.isAscending));
    SortBySorted(Filter(rows, NameMatches(q.searchKeyword)), le);
    FilterKeepsSorted(sorted, CategoryIn(q.selectedCategories), le);
    BoundsKeepSorted(Filter(sorted, CategoryIn(q.selectedCategories)), q.minPrice, q.maxPrice, le);
    PipelinePermutes(rows, q, le);
    ProductPipeline(rows, q, le)
  }

  /** `GetAllProductService`: one page of the matching products, in the
      requested order, with the number of matches before paging. */
  function ListProducts(rows: seq<Product>, q: ProductQuery): (r: PaginationResult<Product>)
    requires q.pageNumber >= 1 && q.pageSize >= 1
    ensures r.pageNumber == q.pageNumber && r.pageSize == q.pageSize
    ensures r.totalCount == |Filter(rows, ProductMatches(q))|
    ensures |r.items| <= q.pageSize
    ensures forall p :: p in r.items ==> p in rows && ProductMatches(q)(p)
    ensures Sorted(r.items, ProductLe(ProductOrderOf(q.sortBy, q.isAscending)))
    ensures r.items == Page(OrderedProducts(rows, q), q.pageNumber, q.pageSize)
  {
    var ordered := OrderedProducts(rows, q);
    PageOfSorted(ordered, q.pageNumber, q.pageSize, ProductLe(ProductOrderOf(q.sortBy, q.isAscending)));
    assert |ordered| == |multiset(ordered)|;
    PaginationResult(Page(ordered, q.pageNumber, q.pageSize), |ordered|, q.pageNumber, q.pageSize)
  }

  // -------------------------------------------------------------- search

  /** The unconditional keyword `Where` of `SearchProductsAsync`. */
  function NameContains(keyword: string): Product -> bool
  {
    (p: Product) => Contains(Lower(p.productName), Lower(keyword))
  }

  /** Which products a search admits. */
  function SearchMatches(keyword: Option<string>, minPrice: Option<int>, maxPrice: Option<int>): Product -> bool
  {
    (p: Product) =>
      KeywordMatches(keyword, p.productName) && AboveMin(minPrice, p.price) && BelowMax(maxPrice, p.price)
  }

  /** The search query before paging, in the source's order: keyword, lower
      bound, upper bound, then `OrderBy`. A permutation of exactly the
      matching products, sorted. */
  function OrderedSearch(rows: seq<Product>, keyword: string, minPrice: Option<int>, maxPrice: Option<int>,
                         o: ProductOrder): (r: seq<Product>)
    ensures multiset(r) == multiset(Filter(rows, SearchMatches(Some(keyword), minPrice, maxPrice)))
    ensures Sorted(r, ProductLe(o))
  {
    var named := Filter(rows, NameContains(keyword));
    var bounded := ApplyMax(ApplyMin(named, minPrice), maxPrice);
    ProductLePreorder(o);
    SortBySorted(bounded, ProductLe(o));
    SearchPermutes(rows, keyword, minPrice, maxPrice);
    SortBy(bounded, ProductLe(o))
  }

  lemma SearchPermutes(rows: seq<Product>, keyword: string, minPrice: Option<int>, maxPrice: Option<int>)
    ensures multiset(ApplyMax(ApplyMin(Filter(rows, NameContains(keyword)), minPrice), maxPrice))
         == multiset(Filter(rows, SearchMatches(Some(keyword), minPrice, maxPrice)))
  {
    var named := Filter(rows, NameContains(keyword));
    var aboveMin := ApplyMin(named, minPrice);
    var r := ApplyMax(aboveMin, maxPrice);
    var expected := Filter(rows, SearchMatches(Some(keyword), minPrice, maxPrice));
    forall x: Product ensures multiset(r)[x] == multiset(expected)[x] {
      NameContainsIsKeyword(keyword, x);
      assert multiset(named)[x] == if KeywordMatches(Some(keyword), x.productName) then multiset(rows)[x] else 0;
    }
    assert multiset(r) == multiset(expected);
  }

  /** The unguarded `Contains` agrees with the guarded keyword filter on
      every non-null keyword. */
  lemma NameContainsIsKeyword(keyword: string, p: Product)
    ensures NameContains(keyword)(p) == KeywordMatches(Some(keyword), p.productName)
  {
    if keyword == "" {
      ContainsEmpty(Lower(p.productName));
    }
  }

  /** `SearchProductsAsync` as written: the keyword is lower-cased without a
      null check, so a null keyword throws. Otherwise one page of the
      matching products in the requested order. */
  function SearchProductsAsWritten(rows: seq<Product>, keyword: Option<string>, minPrice: Option<int>,
                                   maxPrice: Option<int>, sortBy: Option<string>, isAscending: bool,
                                   page: int, pageSize: int): (r: Result<seq<Product>, Error>)
    requires page >= 1 && pageSize >= 1
    ensures keyword.None? <==> r == Failure(NullReference)
    ensures r.Success? ==> |r.value| <= pageSize
    ensures r.Success? ==> forall p :: p in r.value ==> p in rows && SearchMatches(keyword, minPrice, maxPrice)(p)
    ensures r.Success? ==> Sorted(r.value, ProductLe(ProductOrderOf(sortBy, isAscending)))
  {
    if keyword.None? then Failure(NullReference)
    else
      var ordered := OrderedSearch(rows, keyword.value, minPrice, maxPrice, ProductOrderOf(sortBy, isAscending));
      PageOfSorted(ordered, page, pageSize, ProductLe(ProductOrderOf(sortBy, isAscending)));
      Success(Page(ordered, page, pageSize))
  }

  /** A search without a keyword fails. */
  lemma NullKeywordSearchFails(rows: seq<Product>)
    ensures SearchProductsAsWritten(rows, None, None, None, None, true, 1, 3).Failure?
  {
  }

  /** `SearchProductsAsync` as evidently intended: a null keyword restricts
      nothing, like an empty one (as in `GetAllProductService`). */
  function SearchProducts(rows: seq<Product>, keyword: Option<string>, minPrice: Option<int>,
                          maxPrice: Option<int>, sortBy: Option<string>, isAscending: bool,
                          page: int, pageSize: int): (r: seq<Product>)
    requires page >= 1 && pageSize >= 1
    ensures keyword.Some? ==> Success(r) == SearchProductsAsWritten(rows, keyword, minPrice, maxPrice, sortBy, isAscending, page, pageSize)
    ensures |r| <= pageSize
    ensures forall p :: p in r ==> p in rows && SearchMatches(keyword, minPrice, maxPrice)(p)
    ensures Sorted(r, ProductLe(ProductOrderOf(sortBy, isAscending)))
    ensures r == Page(OrderedSearch(rows, keyword.GetOr(""), minPrice, maxPrice, ProductOrderOf(sortBy, isAscending)), page, pageSize)
  {
    var ordered := OrderedSearch(rows, keyword.GetOr(""), minPrice, maxPrice, ProductOrderOf(sortBy, isAscending));
    PageOfSorted(ordered, page, pageSize, ProductLe(ProductOrderOf(sortBy, isAscending)));
    Page(ordered, page, pageSize)
  }

  // ---------------------------------------------------------------- CRUD

  /** `AddProductAsync`: a new row under the fresh identifier `id`, stamped
      `now`, with its slug derived from the name. A null name throws inside
      `GenerateSlug`; a taken identifier is refused by the primary key. */
  function AddProduct(store: ProductStore, m: ProductModel, id: Guid, now: Timestamp)
    : (r: Result<(ProductStore, Product), Error>)
    ensures m.productName.None? ==> r == Failure(NullReference)
    ensures m.productName.Some? && id in store ==> r == Failure(DuplicateKey)
    ensures m.productName.Some? && id !in store ==> r.Success?
    ensures r.Success? ==>
      var (store', p) := r.value;
      && id !in store
      && store' == store[id := p]
      && p.productId == id && p.createdAt == now
      && p.productName == m.productName.value
      && p.slug == GenerateSlug(m.productName.value)
      && p.imgUrl == m.imgUrl && p.description == m.description
      && p.quantity == m.quantity && p.price == m.price && p.categoryId == m.categoryId
    ensures r.Success? && WellKeyed(store) ==> WellKeyed(r.value.0)
  {
    if m.productName.None? then Failure(NullReference)
    else if id in store then Failure(DuplicateKey)
    else
      var p := Product(id, m.imgUrl, m.productName.value, GenerateSlug(m.productName.value),
                       m.description, m.quantity, m.price, m.categoryId, now);
      Success((store[id := p], p))
  }

  /** `UpdateProductService`: the four string fields keep their old value
      when the request's is null; quantity, price and category are always
      overwritten; identifier and creation time never change. An unknown
      identifier yields null and leaves the table alone. */
  function UpdateProduct(store: ProductStore, id: Guid, m: ProductModel): (r: (ProductStore, Option<Product>))
    ensures id !in store ==> r == (store, None)
    ensures id in store ==> r.1.Some? && r.0 == store[id := r.1.value]
    ensures id in store ==>
      var before, after := store[id], r.1.value;
      && after.productId == before.productId
      && after.createdAt == before.createdAt
      && after.productName == m.productName.GetOr(before.productName)
      && after.imgUrl == (if m.imgUrl.Some? then m.imgUrl else before.imgUrl)
      && after.description == (if m.description.Some? then m.description else before.description)
      && after.slug == m.slug.GetOr(before.slug)
      && after.quantity == m.quantity && after.price == m.price && after.categoryId == m.categoryId
    ensures forall k :: k != id ==> (k in r.0 <==> k in store) && (k in store ==> r.0[k] == store[k])
    ensures WellKeyed(store) ==> WellKeyed(r.0)
  {
    if id !in store then (store, None)
    else
      var before := store[id];
      var after := before.(
        productName := m.productName.GetOr(before.productName),
        imgUrl := if m.imgUrl.Some? then m.imgUrl else before.imgUrl,
        description := if m.description.Some? then m.description else before.description,
        slug := m.slug.GetOr(before.slug),
        quantity := m.quantity,
        price := m.price,
        categoryId := m.categoryId);
      (store[id := after], Some(after))
  }

  /** Renaming a product does not regenerate its slug. */
  lemma UpdateKeepsSlug(store: ProductStore, id: Guid, m: ProductModel)
    requires id in store && m.slug.None?
    ensures UpdateProduct(store, id, m).1 == Some(UpdateProduct(store, id, m).1.value)
    ensures UpdateProduct(store, id, m).1.value.slug == store[id].slug
  {
  }

  /** A request whose nullable fields are all null, and which resends the
      stored quantity and category, changes the price and nothing else. */
  lemma UpdateOnlyPrice(store: ProductStore, id: Guid, price: int)
    requires id in store
    ensures var before := store[id];
            var m := ProductModel(None, None, None, None, before.quantity, price, before.categoryId);
            UpdateProduct(store, id, m).1 == Some(before.(price := price))
  {
  }

  /** Quantity and category are not nullable in the request, so a request
      that carries only a price still overwrites them with their defaults:
      quantity 0 and the empty identifier (`Guid(0)`). The nullable fields
      keep their stored values. */
  lemma UpdateOverwritesQuantityAndCategory(store: ProductStore, id: Guid, price: int)
    requires id in store
    ensures var before := store[id];
            var m := ProductModel(None, None, None, None, 0, price, Guid(0));
            UpdateProduct(store, id, m).1
              == Some(before.(quantity := 0, price := price, categoryId := Guid(0)))
  {
  }

  /** Sending the same update twice is the same as sending it once. */
  lemma UpdateIdempotent(store: ProductStore, id: Guid, m: ProductModel)
    ensures var (once, p) := UpdateProduct(store, id, m);
            UpdateProduct(once, id, m) == (once, p)
  {
    var (once, p) := UpdateProduct(store, id, m);
    if id in store {
      assert once[id := p.value] == once;
    }
  }

  /** `DeleteProductService`: removes the row and returns it, or returns null
      and leaves the table alone when there is no such row. */
  function DeleteProduct(store: ProductStore, id: Guid): (r: (ProductStore, Option<Product>))
    ensures id in store ==> r.1 == Some(store[id])
    ensures id !in store ==> r == (store, None)
    ensures r.0.Keys == store.Keys - {id}
    ensures forall k :: k in r.0 ==> r.0[k] == store[k]
    ensures WellKeyed(store) ==> WellKeyed(r.0)
  {
    if id in store then (store - {id}, Some(store[id])) else (store, None)
  }

  /** A second delete of the same identifier finds nothing. */
  lemma DeleteTwice(store: ProductStore, id: Guid)
    ensures DeleteProduct(DeleteProduct(store, id).0, id).1 == None
  {
  }

  /** Deleting a product just added restores the table and returns the
      product. */
  lemma AddThenDelete(store: ProductStore, m: ProductModel, id: Guid, now: Timestamp)
    requires AddProduct(store, m, id, now).Success?
    ensures var (store', p) := AddProduct(store, m, id, now).value;
            DeleteProduct(store', id) == (store, Some(p))
  {
    var (store', p) := AddProduct(store, m, id, now).value;
    assert store' - {id} == store;
  }
}

=== FILE: text.dfy ===
/** String helpers the services rely on: lower-casing, substring search and
    the collation used by `OrderBy` on names. */
module Text {
  import opened Basics

  /** `char.ToLower` restricted to ASCII: upper-case letters map to lower case,
      every other character is left as it is. */
  function LowerChar(c: char): char
  {
    if 'A' <= c <= 'Z' then (c as int + 32) as char else c
  }

  /** `string.ToLower`, character by character. */
  function Lower(s: string): (r: string)
    ensures |r| == |s|
    ensures forall i :: 0 <= i < |s| ==> r[i] == LowerChar(s[i])
  {
    seq(|s|, i requires 0 <= i < |s| => LowerChar(s[i]))
  }

  /** Lower-casing twice is lower-casing once. */
  lemma LowerIdempotent(s: string)
    ensures Lower(Lower(s)) == Lower(s)
  {
  }

  /** `sub` occurs in `s` starting at index `i`. */
  predicate OccursAt(s: string, sub: string, i: int)
  {
    0 <= i && i + |sub| <= |s| && s[i..i + |sub|] == sub
  }

  /** `string.Contains`, computed by trying each starting position in turn. */
  predicate Contains(s: string, sub: string)
    decreases |s|
  {
    (|sub| <= |s| && s[..|sub|] == sub) || (|s| > 0 && Contains(s[1..], sub))
  }

  /** The recursive search finds `sub` exactly when it occurs somewhere. */
  lemma {:induction false} ContainsIff(s: string, sub: string)
    ensures Contains(s, sub) <==> exists i :: OccursAt(s, sub, i)
    decreases |s|
  {
    if |sub| <= |s| && s[..|sub|] == sub {
      assert OccursAt(s, sub, 0);
    } else if |s| > 0 {
      ContainsIff(s[1..], sub);
      if Contains(s[1..], sub) {
        var i :| OccursAt(s[1..], sub, i);
        assert s[i + 1..i + 1 + |sub|] == s[1..][i..i + |sub|];
        assert OccursAt(s, sub, i + 1);
      } else {
        forall i ensures !OccursAt(s, sub, i) {
          if i == 0 && |sub| <= |s| {
            assert s[..|sub|] == s[0..|sub|];
          } else if 0 < i && i + |sub| <= |s| {
            assert s[1..][i - 1..i - 1 + |sub|] == s[i..i + |sub|];
            assert !OccursAt(s[1..], sub, i - 1);
          }
        }
      }
    } else {
      assert |sub| > 0;
    }
  }

  /** The empty string is contained in every string. */
  lemma ContainsEmpty(s: string)
    ensures Contains(s, "")
  {
    assert s[..0] == "";
  }

  /** The keyword filter shared by every listing: a null or empty keyword
      admits everything; otherwise the lower-cased field must contain the
      lower-cased keyword. */
  predicate KeywordMatches(keyword: Option<string>, field: string)
  {
    keyword.None? || keyword.value == "" || Contains(Lower(field), Lower(keyword.value))
  }

  /** A non-empty keyword admits a field exactly when the lower-cased keyword
      occurs at some position of the lower-cased field. */
  lemma KeywordMatchesIff(keyword: string, field: string)
    requires keyword != ""
    ensures KeywordMatches(Some(keyword), field)
        <==> exists i :: OccursAt(Lower(field), Lower(keyword), i)
  {
    ContainsIff(Lower(field), Lower(keyword));
  }

  /** The empty keyword admits the same fields as the null keyword. */
  lemma EmptyKeywordIsNoKeyword(field: string)
    ensures KeywordMatches(Some(""), field) == KeywordMatches(None, field)
  {
  }

  /** Ordinal (code-point) lexicographic order on strings: the collation
      `OrderBy` uses for names. */
  predicate StrLe(a: string, b: string)
    decreases |a|
  {
    |a| == 0 || (|b| > 0 && (a[0] < b[0] || (a[0] == b[0] && StrLe(a[1..], b[1..]))))
  }

  /** Any two strings are comparable. */
  lemma {:induction false} StrLeTotal(a: string, b: string)
    ensures StrLe(a, b) || StrLe(b, a)
    decreases |a|
  {
    if |a| > 0 && |b| > 0 && a[0] == b[0] {
      StrLeTotal(a[1..], b[1..]);
    }
  }

  /** The order is transitive. */
  lemma {:induction false} StrLeTransitive(a: string, b: string, c: string)
    requires StrLe(a, b) && StrLe(b, c)
    ensures StrLe(a, c)
    decreases |a|
  {
    if |a| > 0 && a[0] == b[0] && b[0] == c[0] {
      StrLeTransitive(a[1..], b[1..], c[1..]);
    }
  }
}

=== FILE: users.dfy ===
/** `UserService`: the non-admin user listing, sign-up, partial update,
    ban toggle, delete and login. The password hasher is a pair of function
    parameters. */
module Users {
  import opened Basics
  import opened Text
  import opened Listing

  /** A row of the `Users` table; `password` holds the hash. */
  datatype User = User(
    userId: Guid,
    username: string,
    email: string,
    password: string,
    firstName: string,
    lastName: string,
    imgUrl: string,
    phoneNumber: string,
    address: string,
    birthDate: Timestamp,
    createdAt: Timestamp,
    isAdmin: bool,
    isBanned: bool)

  /** The sign-up request body; `password` is the plaintext. */
  datatype UserModel = UserModel(
    username: string,
    email: string,
    password: string,
    firstName: string,
    lastName: string,
    imgUrl: string,
    phoneNumber: string,
    address: string,
    birthDate: Timestamp,
    isAdmin: bool,
    isBanned: bool)

  /** The partial-update request body: every field is nullable. */
  datatype UpdateUserDto = UpdateUserDto(
    username: Option<string>,
    firstName: Option<string>,
    imgUrl: Option<string>,
    lastName: Option<string>,
    address: Option<string>,
    phoneNumber: Option<string>,
    birthDate: Option<Timestamp>,
    isAdmin: Option<bool>,
    isBanned: Option<bool>)

  /** What listing and login hand out. There is no password field. */
  datatype UserDto = UserDto(
    userId: Guid,
    username: string,
    email: string,
    firstName: string,
    imgUrl: string,
    lastName: string,
    createdAt: Timestamp,
    address: string,
    isAdmin: bool,
    isBanned: bool)

  /** `PasswordVerificationResult`. */
  datatype Verification = Failed | Verified | SuccessRehashNeeded

  type UserStore = map<Guid, User>

  ghost predicate WellKeyed(store: UserStore)
  {
    forall id :: id in store ==> store[id].userId == id
  }

  function ToDto(u: User): (d: UserDto)
  {
    UserDto(u.userId, u.username, u.email, u.firstName, u.imgUrl, u.lastName,
            u.createdAt, u.address, u.isAdmin, u.isBanned)
  }

  // ------------------------------------------------------------- listing

  datatype UserOrder = ByCreatedAt(ascending: bool) | ByUsername(ascending: bool)

  /** The `switch (sortBy.ToLower())` of the user listing. */
  function UserOrderOf(sortBy: Option<string>, isAscending: bool): UserOrder
  {
    if sortBy.None? || sortBy.value == "" then ByCreatedAt(true)
    else if Lower(sortBy.value) == "date" then ByCreatedAt(isAscending)
    else ByUsername(isAscending)
  }

  /** The sort field name is case-insensitive; an absent one means creation
      time ascending; anything but "date" means by username. */
  lemma UserOrderOfSpec(sortBy: string, isAscending: bool)
    ensures UserOrderOf(Some(sortBy), isAscending) == UserOrderOf(Some(Lower(sortBy)), isAscending)
    ensures UserOrderOf(None, isAscending) == ByCreatedAt(true)
    ensures sortBy == "" ==> UserOrderOf(Some(sortBy), isAscending) == ByCreatedAt(true)
    ensures UserOrderOf(Some("Date"), isAscending) == ByCreatedAt(isAscending)
    ensures sortBy != "" && Lower(sortBy) != "date" ==> UserOrderOf(Some(sortBy), isAscending) == ByUsername(isAscending)
  {
    LowerIdempotent(sortBy);
    assert Lower("Date") == "date";
  }

  /** The comparator, written once on the two sort keys a user and its DTO
      share: creation time and username. */
  function KeyLe(o: UserOrder, aCreated: Timestamp, aName: string, bCreated: Timestamp, bName: string): bool
  {
    if o.ByCreatedAt? then (if o.ascending then aCreated <= bCreated else bCreated <= aCreated)
    else (if o.ascending then StrLe(aName, bName) else StrLe(bName, aName))
  }

  /** The comparator on users. */
  function UserLe(o: UserOrder): (User, User) -> bool
  {
    (a: User, b: User) => KeyLe(o, a.createdAt, a.username, b.createdAt, b.username)
  }

  /** The same comparator, read on the DTOs. */
  function UserDtoLe(o: UserOrder): (UserDto, UserDto) -> bool
  {
    (a: UserDto, b: UserDto) => KeyLe(o, a.createdAt, a.username, b.createdAt, b.username)
  }

  /** Projecting to DTOs keeps the order between any two users. */
  lemma ToDtoKeepsOrder(o: UserOrder, a: User, b: User)
    ensures UserLe(o)(a, b) <==> UserDtoLe(o)(ToDto(a), ToDto(b))
  {
  }

  lemma UserLePreorder(o: UserOrder)
    ensures TotalPreorder(UserLe(o))
  {
    var le := UserLe(o);
    forall a, b ensures le(a, b) || le(b, a) {
      StrLeTotal(a.username, b.username);
    }
    forall a, b, c | le(a, b) && le(b, c) ensures le(a, c) {
      if o.ByUsername? {
        if o.ascending {
          StrLeTransitive(a.username, b.username, c.username);
        } else {
          StrLeTransitive(c.username, b.username, a.username);
        }
      }
    }
  }

  /** The users the listing admits: non-admins whose username matches. */
  function UserListed(keyword: Option<string>): User -> bool
  {
    (u: User) => !u.isAdmin && KeywordMatches(keyword, u.username)
  }

  function NotAdmin(u: User): bool { !u.isAdmin }

  function UsernameMatches(keyword: Option<string>): User -> bool
  {
    (u: User) => KeywordMatches(keyword, u.username)
  }

  /** The user query before paging, in the source's order: non-admins,
      keyword, `OrderBy`. A permutation of exactly the listed users, sorted. */
  function OrderedUsers(rows: seq<User>, keyword: Option<string>, o: UserOrder): (r: seq<User>)
    ensures multiset(r) == multiset(Filter(rows, UserListed(keyword)))
    ensures Sorted(r, UserLe(o))
  {
    var candidates := Filter(Filter(rows, NotAdmin), UsernameMatches(keyword));
    UserLePreorder(o);
    SortBySorted(candidates, UserLe(o));
    assert multiset(candidates) == multiset(Filter(rows, UserListed(keyword)));
    SortBy(candidates, UserLe(o))
  }

  /** `GetAllUsersAsync`: one page of non-admin users matching the keyword,
      in the requested order, as DTOs, with the number of such users. */
  function ListUsers(rows: seq<User>, pageNumber: int, pageSize: int, keyword: Option<string>,
                     sortBy: Option<string>, isAscending: bool): (r: PaginationResult<UserDto>)
    requires pageNumber >= 1 && pageSize >= 1
    ensures r.pageNumber == pageNumber && r.pageSize == pageSize
    ensures r.totalCount == |Filter(rows, UserListed(keyword))|
    ensures |r.items| <= pageSize
    ensures forall d :: d in r.items ==> !d.isAdmin && KeywordMatches(keyword, d.username)
    ensures Sorted(r.items, UserDtoLe(UserOrderOf(sortBy, isAscending)))
    ensures r.items == MapSeq(Page(OrderedUsers(rows, keyword, UserOrderOf(sortBy, isAscending)), pageNumber, pageSize), ToDto)
  {
    var o := UserOrderOf(sortBy, isAscending);
    var ordered := OrderedUsers(rows, keyword, o);
    var page := Page(ordered, pageNumber, pageSize);
    PageOfSorted(ordered, pageNumber, pageSize, UserLe(o));
    forall a, b ensures UserLe(o)(a, b) ==> UserDtoLe(o)(ToDto(a), ToDto(b)) {
      ToDtoKeepsOrder(o, a, b);
    }
    MapKeepsSorted(page, ToDto, UserLe(o), UserDtoLe(o));
    assert |ordered| == |multiset(ordered)|;
    var items := MapSeq(page, ToDto);
    DtosListed(ordered, page, keyword);
    PaginationResult(items, |ordered|, pageNumber, pageSize)
  }

  /** The DTOs of a page of listed users are non-admin and match. */
  lemma DtosListed(ordered: seq<User>, page: seq<User>, keyword: Option<string>)
    requires forall u :: u in ordered ==> UserListed(keyword)(u)
    requires forall u :: u in page ==> u in ordered
    ensures forall d :: d in MapSeq(page, ToDto) ==> !d.isAdmin && KeywordMatches(keyword, d.username)
  {
    var items := MapSeq(page, ToDto);
    forall d | d in items ensures !d.isAdmin && KeywordMatches(keyword, d.username) {
      var i :| 0 <= i < |items| && items[i] == d;
      assert page[i] in ordered;
    }
  }

  // ---------------------------------------------------------------- CRUD

  /** `CreateUser`: a new row under the fresh identifier `id`, stamped `now`,
      storing `hash` of the password and copying every other field,
      including the admin and banned flags. */
  function CreateUser(store: UserStore, m: UserModel, hash: string -> string, id: Guid, now: Timestamp)
    : (r: Result<(UserStore, User), Error>)
    ensures id in store <==> r == Failure(DuplicateKey)
    ensures id !in store ==> r.Success?
    ensures r.Success? ==>
      var (store', u) := r.value;
      && store' == store[id := u]
      && u.userId == id && u.createdAt == now
      && u.password == hash(m.password)
      && u.username == m.username && u.email == m.email
      && u.firstName == m.firstName && u.lastName == m.lastName && u.imgUrl == m.imgUrl
      && u.phoneNumber == m.phoneNumber && u.address == m.address && u.birthDate == m.birthDate
      && u.isAdmin == m.isAdmin && u.isBanned == m.isBanned
    ensures r.Success? && WellKeyed(store) ==> WellKeyed(r.value.0)
  {
    if id in store then Failure(DuplicateKey)
    else
      var u := User(id, m.username, m.email, hash(m.password), m.firstName, m.lastName, m.imgUrl,
                    m.phoneNumber, m.address, m.birthDate, now, m.isAdmin, m.isBanned);
      Success((store[id := u], u))
  }

  /** The admin / banned flag update as written: keep when equal to the
      supplied value, keep when nothing is supplied, else take the supplied
      value. It is plain partial-merge. */
  function MergeFlag(existing: bool, supplied: Option<bool>): (r: bool)
    ensures r == supplied.GetOr(existing)
  {
    if supplied == Some(existing) then existing
    else if supplied.None? then existing
    else supplied.value
  }

  /** `UpdateUser`: each nullable field keeps its old value when null; email,
      password, identifier and creation time never change. A null request
      or an unknown identifier yields null and leaves the table alone. */
  function UpdateUser(store: UserStore, id: Guid, upd: Option<UpdateUserDto>): (r: (UserStore, Option<User>))
    ensures id !in store || upd.None? ==> r == (store, None)
    ensures id in store && upd.Some? ==> r.1.Some? && r.0 == store[id := r.1.value]
    ensures id in store && upd.Some? ==>
      var before, after, u := store[id], r.1.value, upd.value;
      && after.userId == before.userId && after.createdAt == before.createdAt
      && after.email == before.email && after.password == before.password
      && after.username == u.username.GetOr(before.username)
      && after.firstName == u.firstName.GetOr(before.firstName)
      && after.imgUrl == u.imgUrl.GetOr(before.imgUrl)
      && after.lastName == u.lastName.GetOr(before.lastName)
      && after.address == u.address.GetOr(before.address)
      && after.phoneNumber == u.phoneNumber.GetOr(before.phoneNumber)
      && after.birthDate == u.birthDate.GetOr(before.birthDate)
      && after.isAdmin == u.isAdmin.GetOr(before.isAdmin)
      && after.isBanned == u.isBanned.GetOr(before.isBanned)
    ensures forall k :: k != id ==> (k in r.0 <==> k in store) && (k in store ==> r.0[k] == store[k])
    ensures WellKeyed(store) ==> WellKeyed(r.0)
  {
    if id !in store || upd.None? then (store, None)
    else
      var before, u := store[id], upd.value;
      var after := before.(
        username := u.username.GetOr(before.username),
        firstName := u.firstName.GetOr(before.firstName),
        imgUrl := u.imgUrl.GetOr(before.imgUrl),
        lastName := u.lastName.GetOr(before.lastName),
        address := u.address.GetOr(before.address),
        phoneNumber := u.phoneNumber.GetOr(before.phoneNumber),
        birthDate := u.birthDate.GetOr(before.birthDate),
        isAdmin := MergeFlag(before.isAdmin, u.isAdmin),
        isBanned := MergeFlag(before.isBanned, u.isBanned));
      (store[id := after], Some(after))
  }

  /** An all-null update changes nothing. */
  lemma EmptyUpdateIsIdentity(store: UserStore, id: Guid)
    requires id in store
    ensures UpdateUser(store, id, Some(UpdateUserDto(None, None, None, None, None, None, None, None, None)))
         == (store, Some(store[id]))
  {
    assert store[id := store[id]] == store;
  }

  /** `BanUnbanUser`: flips the banned flag of one user and nothing else. */
  function BanUnbanUser(store: UserStore, id: Guid): (r: (UserStore, Option<User>))
    ensures id !in store ==> r == (store, None)
    ensures id in store ==> r.1 == Some(store[id].(isBanned := !store[id].isBanned))
    ensures id in store ==> r.0 == store[id := r.1.value]
    ensures WellKeyed(store) ==> WellKeyed(r.0)
  {
    if id !in store then (store, None)
    else
      var u := store[id].(isBanned := !store[id].isBanned);
      (store[id := u], Some(u))
  }

  /** Toggling twice restores the table. */
  lemma BanUnbanTwice(store: UserStore, id: Guid)
    ensures BanUnbanUser(BanUnbanUser(store, id).0, id).0 == store
  {
    if id in store {
      var once := BanUnbanUser(store, id).0;
      assert once[id := once[id].(isBanned := !once[id].isBanned)] == store;
    }
  }

  /** `DeleteUser`: removes the row and returns it, or returns null and
      leaves the table alone. */
  function DeleteUser(store: UserStore, id: Guid): (r: (UserStore, Option<User>))
    ensures id in store ==> r.1 == Some(store[id])
    ensures id !in store ==> r == (store, None)
    ensures r.0.Keys == store.Keys - {id}
    ensures forall k :: k in r.0 ==> r.0[k] == store[k]
  {
    if id in store then (store - {id}, Some(store[id])) else (store, None)
  }

  /** Deleting a user just signed up restores the table and returns that
      user. */
  lemma CreateThenDelete(store: UserStore, m: UserModel, hash: string -> string, id: Guid, now: Timestamp)
    requires id !in store
    ensures var (store', u) := CreateUser(store, m, hash, id, now).value;
            DeleteUser(store', id) == (store, Some(u))
  {
    var (store', u) := CreateUser(store, m, hash, id, now).value;
    assert store' - {id} == store;
  }

  // --------------------------------------------------------------- login

  /** The identifiers of the users registered under `email`. */
  function WithEmail(store: UserStore, email: string): (ids: set<Guid>)
    ensures forall id :: id in ids <==> id in store && store[id].email == email
  {
    set id | id in store && store[id].email == email
  }

  /** `LoginUserAsync`: `SingleOrDefault` by email (none: null; several:
      throws), then the hasher's verdict on the stored hash; anything but
      `Failed` (rehash-needed included) logs in and yields the user's DTO. */
  function Login(store: UserStore, email: string, password: string,
                 verify: (string, string) -> Verification): (r: Result<Option<UserDto>, Error>)
    ensures |WithEmail(store, email)| == 0 ==> r == Success(None)
    ensures |WithEmail(store, email)| > 1 <==> r == Failure(MultipleMatches)
    ensures r.Success? && r.value.Some? ==> r.value.value.email == email
    ensures WellKeyed(store) && r.Success? && r.value.Some? ==>
      var d := r.value.value;
      && d.userId in store
      && d == ToDto(store[d.userId])
      && verify(store[d.userId].password, password) != Failed
    ensures |WithEmail(store, email)| == 1 ==>
      forall id :: id in store && store[id].email == email ==>
        r == Success(if verify(store[id].password, password) == Failed then None else Some(ToDto(store[id])))
  {
    var ids := WithEmail(store, email);
    if |ids| == 0 then Success(None)
    else if |ids| > 1 then Failure(MultipleMatches)
    else
      var id := TheOnly(ids);
      var u := store[id];
      if verify(u.password, password) == Failed then Success(None) else Success(Some(ToDto(u)))
  }

  /** The element of a singleton set. */
  function TheOnly<T>(s: set<T>): (x: T)
    requires |s| == 1
    ensures s == {x}
  {
    var x :| x in s;
    assert |s - {x}| == 0;
    assert s - {x} == {};
    x
  }

  /** A user just signed up can log in with the same email and password,
      provided the email was not taken and the hasher accepts its own hash. */
  lemma SignUpThenLogin(store: UserStore, m: UserModel, hash: string -> string,
                        verify: (string, string) -> Verification, id: Guid, now: Timestamp)
    requires forall id' :: id' in store ==> store[id'].email != m.email
    requires id !in store
    requires verify(hash(m.password), m.password) != Failed
    ensures var (store', u) := CreateUser(store, m, hash, id, now).value;
            Login(store', m.email, m.password, verify) == Success(Some(ToDto(u)))
  {
    var (store', u) := CreateUser(store, m, hash, id, now).value;
    assert WithEmail(store', m.email) == {id};
  }
}
